=== FILE: README.md ===
# Movie API: import scripts, schemas and admin gate, in Dafny

This project models the data-handling core of a small movie API built on
Express and MongoDB:

- **The CSV update script** (`scripts/update-from-csv.js`). For each row of
  `movies-update.csv`, the script:
  - picks a lookup key (`_id` first, then `Title`);
  - builds a `$set` document from the AppleTV, AmazonPrime, RT_Link and
    RT_Score columns;
  - skips rows with no key or with nothing to set;
  - in dry-run mode stops there;
  - otherwise sends one `findOneAndUpdate` and counts the row as updated,
    not found or failed.

  Module `CsvUpdate` holds the per-row decisions as functions, the tally and
  the list of issued commands as folds, and the loop itself as the method
  `RunUpdate`. `RunUpdate` is proved to compute exactly those folds.
- **The TMDB seeding script** (`scripts/seed-from-csv.js`). For each row of
  `movies.csv` with a non-blank Title, the script looks the movie up on TMDB,
  maps the details and credits to a Movie document (`mapToSchema`) and stores
  it with an insert-if-absent upsert keyed by Title. Module `TmdbSeed` models
  this:
  - `img` as a function, with a proved round trip;
  - `mapToSchema` field by field;
  - the upsert on a map from Title to document;
  - the loop as a fold.

  The proofs show that existing documents are never changed. They also show
  that the store gains exactly the Titles the rows produce, that the first
  document for a Title wins, and that re-running the seed changes nothing.
- **The schemas** (`models.js`). Module `Schemas` covers:
  - the required fields of Movie, Comment and User;
  - the Username and Email patterns with their messages;
  - the 1..5 bounds on a comment's Rating.

  Each pattern is modelled as the regular expression it is: an anchored
  sequence of quantified character classes, matched by splitting the string.
  Each also has a direct description, and the two are proved to accept the
  same strings.
- **The admin gate** (`admin.js`), module `AdminGate`. The request goes on
  exactly when the session user's Admin flag is true. Everyone else gets 403
  with "Access denied. Admins only.".

Module `JsText` holds the JavaScript primitives these share:
- field values that may be undefined, null or a string;
- truthiness;
- the ECMAScript white-space set that both `\s` and `String.prototype.trim`
  use, and `trim` itself;
- the blank test;
- `indexOf`;
- `replace` with a one-character pattern, which removes only the first
  occurrence.

The following are parameters of the model, not parts of it:
- **Numbers.** `Number(text)` and number-to-string are floating-point
  operations. They are passed in as functions over an abstract number type
  `N`.
- **The datastore's answers.** Each update row carries what
  `findOneAndUpdate` did: returned a document, returned null, or threw. Each
  seed row carries what happened inside the script's `try`: no search match;
  the details and credits were fetched and the upsert went through; or an
  error was caught, whether a lookup or the upsert itself threw.
- **The `--dry` flag.** It is a boolean argument.

## Model

| member | source | states |
|---|---|---|
| JsText.Trim | scripts/update-from-csv.js:8 | trim gives the empty string exactly when the input is all white space, and it never lengthens the input |
| JsText.TrimIsSliceBetweenSpace | scripts/update-from-csv.js:8 | trim keeps one contiguous slice of the input with only white space on either side, and a non-empty result neither starts nor ends with white space |
| JsText.TrimIdempotent | scripts/update-from-csv.js:11 | trimming an already trimmed string changes nothing |
| JsText.IsBlank | scripts/update-from-csv.js:8 | a value is blank exactly when it is undefined, null, or a string made only of white space |
| JsText.IndexOf | scripts/update-from-csv.js:11 | gives the position of the first occurrence of the character, or the length when it does not occur |
| JsText.RemoveFirst | scripts/update-from-csv.js:11 | replacing '%' with '' deletes only its first occurrence: a string without '%' is unchanged; otherwise the result is one shorter, equal to the input before that position and shifted by one after it |
| CsvUpdate.RemoveFirstAllWhitespace | scripts/update-from-csv.js:11-12 | after the first '%' is removed, the rest is all white space exactly when every other character of the input is white space |
| CsvUpdate.NormScore | scripts/update-from-csv.js:9-13 | a score, when there is one, is the parse of the text with its first '%' removed and then trimmed |
| CsvUpdate.NoScoreIffOnlySpace | scripts/update-from-csv.js:9-13 | there is no score exactly when the cell is missing or holds only white space apart from its first '%'; a blank cell never has a score, so the early blank test changes no answer |
| CsvUpdate.SelectQuery | scripts/update-from-csv.js:36-41 | a non-blank `_id` gives a query on the trimmed id; otherwise a non-blank Title gives a query on the trimmed title; with both blank there is no query |
| CsvUpdate.IdWinsOverTitle | scripts/update-from-csv.js:36-41 | once `_id` is usable, the Title column cannot change the query |
| CsvUpdate.SetUnlessBlank | scripts/update-from-csv.js:50-54 | a link path is added, holding the trimmed cell, exactly when the cell is not blank; a blank cell leaves the document unchanged; every other path is untouched |
| CsvUpdate.LinkChanges | scripts/update-from-csv.js:49-54 | each of the three link paths is present exactly when its column is not blank, with the trimmed text, and no score path is present |
| CsvUpdate.WithScore | scripts/update-from-csv.js:56-60 | with a score, both the numeric score and its text followed by '%' are added; without one, nothing changes; the link paths are untouched |
| CsvUpdate.BuildSet | scripts/update-from-csv.js:49-60 | the `$set` document has each link path exactly when its column is not blank, and both score paths exactly when there is a score; the text score is the printed number followed by '%' |
| CsvUpdate.PathsDistinct | scripts/update-from-csv.js:49-60 | the five `$set` keys (three links, numeric and text score) are five different document paths, so no column overwrites another |
| CsvUpdate.PlanRow | scripts/update-from-csv.js:43-66 | a row is skipped for having no key exactly when `_id` and Title are both blank, and for having nothing to set exactly when it has a key and an empty `$set`; otherwise it updates the selected document with a non-empty `$set` |
| CsvUpdate.BlankColumnsAreSkipped | scripts/update-from-csv.js:49-66 | a row whose four update columns are blank is always skipped |
| CsvUpdate.RowOutcome | scripts/update-from-csv.js:68-85 | a skipped plan counts as skipped; a planned update stops at the dry-run branch exactly when the flag is set; in a live run it counts as updated exactly when the datastore returns a document, as not found exactly when it returns null, and as failed exactly when the call throws |
| CsvUpdate.Bump | scripts/update-from-csv.js:43-85 | a row's outcome increments exactly the counter it names, and a dry-run row increments none |
| CsvUpdate.TallyOf | scripts/update-from-csv.js:30-86 | outside dry mode every row is counted exactly once, so the four counters add up to the number of rows |
| CsvUpdate.Sent | scripts/update-from-csv.js:68-74 | a row sends one update, with its query and `$set`, exactly when its outcome is one of the three that reach the datastore |
| CsvUpdate.Issued | scripts/update-from-csv.js:62-74 | a dry run sends no update, and no update is ever sent with an empty `$set` |
| CsvUpdate.IssuedMatchesTally | scripts/update-from-csv.js:73-85 | a live run sends exactly as many updates as it counts updated, not-found and failed rows |
| CsvUpdate.CounterFollowsReply | scripts/update-from-csv.js:73-85 | in a live run, the counter a datastore reply belongs to equals the number of planned updates that received that reply |
| CsvUpdate.LiveCountersFollowReplies | scripts/update-from-csv.js:73-85 | in a live run, updated, not-found and failed count exactly the planned updates answered with a document, with null, and with an error |
| CsvUpdate.DryRunCountsOnlySkips | scripts/update-from-csv.js:68-71 | a dry run leaves the updated, not-found and failed counters at zero |
| CsvUpdate.DryRunSkipsLikeLiveRun | scripts/update-from-csv.js:43-71 | a dry run counts exactly as many skipped rows as a live run over the same rows |
| CsvUpdate.RunUpdate | scripts/update-from-csv.js:30-86 | the loop returns the tally and the sequence of sent updates that the per-row rules define; outside dry mode the four counters add up to the number of rows |
| TmdbSeed.Img | scripts/seed-from-csv.js:23-24 | a URL exists exactly when the path is truthy, and its length is that of the base, the size and the path together |
| TmdbSeed.ImgPath | scripts/seed-from-csv.js:23-24 | a path read back from a URL is the URL with the base and size stripped off the front |
| TmdbSeed.ImgRoundTrip | scripts/seed-from-csv.js:23-24 | reading the path back from a built URL gives the original path |
| TmdbSeed.ImgInjective | scripts/seed-from-csv.js:23-24 | two paths give the same URL at one size only when they are equal |
| TmdbSeed.FindDirectorFrom | scripts/seed-from-csv.js:42 | finds the first crew member at or after a position whose job is exactly "Director", or reports that there is none |
| TmdbSeed.FindDirector | scripts/seed-from-csv.js:42 | finds the first crew member whose job is exactly "Director", or reports that there is none |
| TmdbSeed.TopActors | scripts/seed-from-csv.js:43 | gives the names of the first five cast members in billing order, all of them if there are fewer, and none when the cast list is missing |
| TmdbSeed.DirectorOf | scripts/seed-from-csv.js:42-57 | there is a director entry exactly when some crew member is a director; it holds the first director's name and profile image at w500 |
| TmdbSeed.MapToSchema | scripts/seed-from-csv.js:41-69 | the document has TMDB's title; the overview, or "No description available." when the overview is empty (so the description is never empty); the first genre only; the first director; the top five actors; the poster at w780 and the backdrop at original size; Featured false; a release year parsed from the first four characters of a truthy release date |
| TmdbSeed.MappedDocValidity | models.js:6-7 | a mapped document always satisfies the required Description, and satisfies the required Title exactly when TMDB gave a non-empty title |
| TmdbSeed.UpsertByTitle | scripts/seed-from-csv.js:71-78 | inserts the document only when its Title is absent; the store gains only that Title and no stored document changes |
| TmdbSeed.UpsertKeepsKeying | scripts/seed-from-csv.js:71-78 | if every document is stored under its own Title, that stays true after the upsert |
| TmdbSeed.UpsertFirstWins | scripts/seed-from-csv.js:71-78 | upserting a second document with the same Title changes nothing, so the first document stays |
| TmdbSeed.RowDoc | scripts/seed-from-csv.js:89-103 | a row produces a document exactly when its Title is not blank and its lookups and upsert went through (no error caught); that document is the mapped bundle |
| TmdbSeed.Produced | scripts/seed-from-csv.js:89-103 | one entry per row, each the document that row produces |
| TmdbSeed.UpsertAll | scripts/seed-from-csv.js:89-108 | the store gains exactly the Titles of the produced documents; stored documents never change; keying by Title is preserved; each new Title holds a document with that Title, the one of the first row that produced it |
| TmdbSeed.UpsertAllNoOp | scripts/seed-from-csv.js:71-78 | a pass whose documents' Titles are all stored already leaves the store unchanged |
| TmdbSeed.NoEarlierProducer | scripts/seed-from-csv.js:89-103 | a Title that no document before a position has is the Title of no row's document before that position |
| TmdbSeed.SeedAll | scripts/seed-from-csv.js:89-108 | after the loop a Title is stored exactly when it was stored before or some row produced it; documents stored before are unchanged; a new Title holds the mapped document of the first row that produced it |
| TmdbSeed.SeedAllIdempotent | scripts/seed-from-csv.js:71-108 | running the seed a second time over the same rows changes nothing |
| TmdbSeed.FetchedRowsAreStored | scripts/seed-from-csv.js:90-103 | a row with a non-blank Title whose lookups and upsert went through leaves a document under the Title TMDB returned |
| Schemas.UsernameMatchesPattern | models.js:42-49 | a username matches `^[a-zA-Z0-9_]{3,20}$` exactly when it is 3 to 20 ASCII letters, digits or underscores |
| Schemas.EmailSplitMatches | models.js:57 | a string of the form local '@' domain '.' suffix, with non-empty parts that hold no white space and no '@', matches the email pattern |
| Schemas.MatchesEmailSplit | models.js:57 | a string the email pattern matches splits as local '@' domain '.' suffix, with non-empty parts that hold no white space and no '@' |
| Schemas.EmailMatchesPattern | models.js:54-58 | an email matches `^[^\s@]+@[^\s@]+\.[^\s@]+$` exactly when it has no white space, exactly one '@' with text before it, and a '.' after the '@' that is neither the first nor the last character after it |
| Schemas.CheckString | models.js:42-58 | a required string field yields no violation exactly when it is non-empty and matches its pattern; otherwise it yields one violation: "required" when it is empty or missing, the pattern's message when it does not match |
| Schemas.ValidateUser | models.js:41-62 | a user is valid exactly when Username, Password and Email are present and the Username and Email match their patterns; each missing field and each mismatch is reported with its path and message, and nothing else is ever reported (at most three violations, from the five possible ones) |
| Schemas.FavoritesAreUnconstrained | models.js:60 | a list of well-formed object ids, duplicates included, never affects user validation |
| Schemas.CheckRating | models.js:33 | a Rating yields no violation exactly when it is present and between 1 and 5 inclusive; a missing, too small or too large rating gets its own violation |
| Schemas.ValidateComment | models.js:30-35 | a comment is valid exactly when Username and Content are present and the Rating is between 1 and 5; Username and Content are reported required exactly when missing, Rating exactly when absent, below-minimum exactly when under 1 and above-maximum exactly when over 5; nothing else is reported, and every violation names that comment's position |
| Schemas.CommentViolations | models.js:29-36 | no violation is reported exactly when every comment is valid, and each violation points at an existing comment |
| Schemas.CommentViolationsFromOwn | models.js:29-36 | every violation reported for the comments is a violation of the comment at the position it names |
| Schemas.OwnInCommentViolations | models.js:29-36 | every violation of the comment at a position is reported for the comments |
| Schemas.CommentViolationsAreOwn | models.js:29-36 | a violation is reported for the comments exactly when it names an existing position and is a violation of the comment there |
| Schemas.ValidateMovie | models.js:5-39 | a movie is valid exactly when Title and Description are present and every comment is valid; a missing Title or Description is reported as required, every comment violation is reported, and nothing else is |
| Schemas.RatingBounds | models.js:33 | a comment has a Rating violation exactly when the rating is missing, below 1 or above 5 |
| AdminGate.RequireAdmin | admin.js:1-6 | the request goes on exactly when there is a user whose Admin flag is true; every other request is answered with 403 and "Access denied. Admins only." |
| AdminGate.SameDenialForEveryNonAdmin | admin.js:2-5 | anonymous users, users without the flag and users with the flag false all get the same answer |
| AdminGate.OnlyTheFlagMatters | admin.js:2 | two users with the same Admin flag get the same answer, whatever their names |

## Left out

- Reading and parsing the CSV files is not modelled. The rows arrive as a
  sequence of records whose cells are undefined or a string.
- The MongoDB connection and the queries themselves are not modelled.
  `findOneAndUpdate` is represented by its per-row answer, and the seed's
  upsert by an insert-if-absent on a map from Title to document. A missing
  Title is a key like any other. The datastore's treatment of an undefined
  Title in a query is not modelled.
- The seed's `upsertByTitle` returns the stored document. The model returns
  the whole store, and the stored document is its entry for the Title.
- The TMDB HTTP calls (`resolveTmdbId`, `fetchBundle`), their timeouts and
  the search year are not modelled. Each row carries the lookups' result
  instead, so the `Year` column, which only feeds the search, plays no part.
- `Number(...)` and number-to-string conversion are floating point. They are
  parameters over an abstract type. NaN and the exact printing of numbers are
  not modelled.
- Comment Rating is modelled as an optional real number. A value the schema
  library cannot cast to a number is not modelled.
- The Movie schema declares neither a RottonTomatoes path nor
  Director.Image. Under the schema library's default strict mode, the update
  script's three RottonTomatoes paths and the seed's Director.Image would be
  dropped on write. The model stops at the command it issues and the document
  it builds.
- Password hashing (`hashPassword`, `validatePassword`) calls bcrypt and is
  not modelled.
- PostedAt's default is the clock, and is not modelled. Birthday and PostedAt
  are optional integers.
- Logging output, process exit on missing environment variables, and the
  script's connect/disconnect are not modelled.
- `index.js`, `passport.js`, `auth.js` and the loggers are the routes,
  authentication and logging around the core, and are not part of this
  model.
- The schemas' optional fields (Genre, Director, Actors, ImagePath,
  BackdropPath, Featured, WatchLinks, ReleaseYear) carry only the schema
  library's type casts (for instance Featured: Boolean at models.js:22 and
  ReleaseYear: Number at models.js:38). A value that fails its cast is a
  validation error that is not modelled; these fields are left out of the
  validated records.
- Strings are sequences of Unicode code points, while JavaScript strings are
  sequences of UTF-16 code units. The regexes (no `u` flag), `trim` and
  `replace` behave the same either way, but MapToSchema's four-character
  release year (`slice(0, 4)` at scripts/seed-from-csv.js:66) counts code
  units in the source and so differs on a date holding characters outside
  the Basic Multilingual Plane; lone surrogates cannot be represented.
- UserDoc and CommentDoc take Birthday (a Date), FavoriteMovies (a list of
  ObjectId) and Admin (a Boolean) at models.js:59-61, and PostedAt (a Date)
  at models.js:34, as values already cast. A value that fails its cast, such
  as a favourite that is not an object id, is a validation error the schema
  library reports and the model does not.
- Schemas.CheckString: the schema library also casts non-string values to
  strings before validating. Only strings, undefined and null are modelled.

=== FILE: admin.dfy ===
/**
 The admin gate put in front of the admin-only routes: the request goes on
 to the route only for a logged-in user whose Admin flag is set; everyone
 else gets a 403 with a fixed message.
 */
module AdminGate {
  import opened JsText

  /** The authenticated user on a request; Admin is an optional Boolean. */
  datatype SessionUser = SessionUser(username: string, admin: Option<bool>)

  /** What the middleware did: passed the request on, or answered it. */
  datatype Reply = Next | Respond(status: int, message: string)

  const DeniedStatus := 403
  const DeniedMessage := "Access denied. Admins only."

  /** Admin is truthy only when it is present and true. */
  predicate IsAdmin(user: Option<SessionUser>) {
    user.Some? && user.value.admin == Some(true)
  }

  /** `requireAdmin`: the request goes on exactly when there is a user whose
      Admin flag is true; otherwise it is answered with 403 and the denial
      message. */
  function RequireAdmin(user: Option<SessionUser>): (r: Reply)
    ensures r.Next? <==> IsAdmin(user)
    ensures r.Respond? ==> r.status == DeniedStatus && r.message == DeniedMessage
  {
    if user.Some? && user.value.admin.Some? && user.value.admin.value then Next
    else Respond(DeniedStatus, DeniedMessage)
  }

  /** Anonymous users, users without the flag and users with it false all get
      the same answer, and the gate only looks at the Admin flag. */
  lemma SameDenialForEveryNonAdmin(u: Option<SessionUser>, v: Option<SessionUser>)
    requires !IsAdmin(u) && !IsAdmin(v)
    ensures RequireAdmin(u) == RequireAdmin(v)
  {
  }

  lemma OnlyTheFlagMatters(name1: string, name2: string, flag: Option<bool>)
    ensures RequireAdmin(Some(SessionUser(name1, flag))) == RequireAdmin(Some(SessionUser(name2, flag)))
  {
  }
}

=== FILE: js_text.dfy ===
/**
 The JavaScript values and string primitives that the import scripts and the
 schema validators are built from: field values, truthiness, the white-space
 class of `\s` and `String.prototype.trim`, and single-occurrence `replace`.
 Numeric parsing and printing are float operations and stay abstract.
 */
module JsText {

  datatype Option<+T> = None | Some(value: T)

  /** A value read from a CSV cell or a JSON record field: absent, null, or a string. */
  datatype Field = Undefined | Null | Str(s: string)

  /** JavaScript truthiness on these values: only a non-empty string is truthy. */
  predicate Truthy(f: Field) {
    f.Str? && |f.s| > 0
  }

  /** The characters ECMAScript counts as WhiteSpace or LineTerminator; both
      the `\s` regex class and `trim` use exactly this set. */
  predicate IsWhitespace(c: char) {
    || c == '\t' || c == '\n' || c == '\U{000B}' || c == '\U{000C}' || c == '\r'
    || c == ' ' || c == '\U{00A0}' || c == '\U{1680}'
    || ('\U{2000}' <= c <= '\U{200A}')
    || c == '\U{2028}' || c == '\U{2029}' || c == '\U{202F}' || c == '\U{205F}'
    || c == '\U{3000}' || c == '\U{FEFF}'
  }

  predicate AllWhitespace(s: string) {
    forall i :: 0 <= i < |s| ==> IsWhitespace(s[i])
  }

  /** The index of the first non-white-space character at or after `i`
      (or `|s|` when there is none). */
  function SkipSpace(s: string, i: nat): (j: nat)
    requires i <= |s|
    ensures i <= j <= |s|
    ensures forall k :: i <= k < j ==> IsWhitespace(s[k])
    ensures j < |s| ==> !IsWhitespace(s[j])
    decreases |s| - i
  {
    if i < |s| && IsWhitespace(s[i]) then SkipSpace(s, i + 1) else i
  }

  /** The end of `s[lo..e]` once its trailing white space is dropped. */
  function SkipSpaceBack(s: string, lo: nat, e: nat): (f: nat)
    requires lo <= e <= |s|
    ensures lo <= f <= e
    ensures forall k :: f <= k < e ==> IsWhitespace(s[k])
    ensures f > lo ==> !IsWhitespace(s[f - 1])
    decreases e
  {
    if e > lo && IsWhitespace(s[e - 1]) then SkipSpaceBack(s, lo, e - 1) else e
  }

  /** `String.prototype.trim`. It is empty exactly when the input is all
      white space; TrimIsSliceBetweenSpace states what it keeps. */
  function Trim(s: string): (r: string)
    ensures |r| <= |s|
    ensures |r| == 0 <==> AllWhitespace(s)
  {
    var a := SkipSpace(s, 0);
    var b := SkipSpaceBack(s, a, |s|);
    assert b > a ==> !AllWhitespace(s) by {
      if b > a {
        assert !IsWhitespace(s[a]);
      }
    }
    s[a..b]
  }

  /** The trimmed string is a contiguous slice of the input with only white
      space around it, and it neither starts nor ends with white space. */
  lemma TrimIsSliceBetweenSpace(s: string)
    ensures var r := Trim(s);
            && (exists i :: 0 <= i <= |s| - |r|
                            && AllWhitespace(s[..i])
                            && s[i..][..|r|] == r
                            && AllWhitespace(s[i..][|r|..]))
            && (|r| > 0 ==> !IsWhitespace(r[0]) && !IsWhitespace(r[|r| - 1]))
  {
    var a := SkipSpace(s, 0);
    var b := SkipSpaceBack(s, a, |s|);
    var r := Trim(s);
    assert r == s[a..b];
    assert s[a..][..|r|] == r;
    assert AllWhitespace(s[..a]);
    assert AllWhitespace(s[a..][|r|..]);
  }

  /** `isBlank`: undefined, null, or a string that trims to nothing. The
      seed script's `!row.Title?.trim()` is the same test. */
  function IsBlank(v: Field): (b: bool)
    ensures b <==> (v.Str? ==> AllWhitespace(v.s))
  {
    match v
    case Str(s) => Trim(s) == ""
    case _ => true
  }

  /** Trimming twice is trimming once. */
  lemma TrimIdempotent(s: string)
    ensures Trim(Trim(s)) == Trim(s)
  {
  }

  /** The index of the first `c` at or after `from`, or `|s|` when there is none. */
  function IndexFrom(s: string, c: char, from: nat): (i: nat)
    requires from <= |s|
    ensures from <= i <= |s|
    ensures i < |s| ==> s[i] == c
    ensures forall j :: from <= j < i ==> s[j] != c
    decreases |s| - from
  {
    if from == |s| || s[from] == c then from else IndexFrom(s, c, from + 1)
  }

  /** The index of the first `c` in `s`, or `|s|` when `c` does not occur. */
  function IndexOf(s: string, c: char): (i: nat)
    ensures i <= |s|
    ensures i < |s| ==> s[i] == c
    ensures forall j :: 0 <= j < i ==> s[j] != c
  {
    IndexFrom(s, c, 0)
  }

  /** `s.replace(c, '')` with a one-character pattern: removes the FIRST
      occurrence of `c` only, and leaves a string without `c` alone. */
  function RemoveFirst(s: string, c: char): (r: string)
    ensures c !in s ==> r == s
    ensures c in s ==> |r| == |s| - 1
    ensures forall k :: 0 <= k < |r| ==>
              r[k] == (if k < IndexOf(s, c) then s[k] else s[k + 1])
  {
    var i := IndexOf(s, c);
    if i == |s| then s else s[..i] + s[i + 1..]
  }

  /** JavaScript's `Number(text)` and number-to-string conversion work on
      floating point; the model carries them as parameters. */
  datatype NumberOps<!N> = NumberOps(parse: string -> N, show: N -> string)
}

=== FILE: models.dfy ===
/**
 The validation the Movie and User schemas declare: required fields, the
 Username and Email patterns, and the 1..5 bounds on a comment's Rating.
 A document is checked field by field and every failing field is reported,
 one violation per field, as the schema library does.

 The two patterns are modelled twice: once as the regular expression they
 are written as (an anchored sequence of quantified character classes, with
 the usual "split the string" meaning), and once as a direct description of
 the accepted strings; the lemmas prove the two agree.
 */
module Schemas {
  import opened JsText

  /** The character classes the two patterns use. */
  datatype CharClass = WordChar | NotSpaceOrAt | Literal(c: char)

  /** `[a-zA-Z0-9_]`. */
  predicate IsWordChar(c: char) {
    ('a' <= c <= 'z') || ('A' <= c <= 'Z') || ('0' <= c <= '9') || c == '_'
  }

  predicate InClass(cls: CharClass, c: char) {
    match cls
    case WordChar => IsWordChar(c)
    case NotSpaceOrAt => !IsWhitespace(c) && c != '@'
    case Literal(l) => c == l
  }

  /** A character class repeated between `min` and `max` times (`max`
      absent for an unbounded `+`). */
  datatype Atom = Atom(cls: CharClass, min: nat, max: Option<nat>)

  /** Atom `a` matches the piece `s[i..j]`. */
  ghost predicate AtomSpans(a: Atom, s: string, i: nat, j: nat)
    requires i <= j <= |s|
  {
    && a.min <= j - i
    && (a.max.Some? ==> j - i <= a.max.value)
    && forall k :: i <= k < j ==> InClass(a.cls, s[k])
  }

  /** The atoms from position `n` on match the rest of `s` from index `i`:
      the rest splits into consecutive pieces, one per atom. */
  ghost predicate MatchesFrom(atoms: seq<Atom>, n: nat, s: string, i: nat)
    requires n <= |atoms| && i <= |s|
    decreases |atoms| - n
  {
    if n == |atoms| then i == |s|
    else exists j :: i <= j <= |s| && AtomSpans(atoms[n], s, i, j) && MatchesFrom(atoms, n + 1, s, j)
  }

  /** The anchored pattern `^a1 a2 ... an$` matches the whole of `s`. */
  ghost predicate Matches(atoms: seq<Atom>, s: string) {
    MatchesFrom(atoms, 0, s, 0)
  }

  /** `/^[a-zA-Z0-9_]{3,20}$/` */
  const UsernamePattern: seq<Atom> := [Atom(WordChar, 3, Some(20))]

  /** `/^[^\s@]+@[^\s@]+\.[^\s@]+$/` */
  const EmailPattern: seq<Atom> :=
    [ Atom(NotSpaceOrAt, 1, None), Atom(Literal('@'), 1, Some(1)),
      Atom(NotSpaceOrAt, 1, None), Atom(Literal('.'), 1, Some(1)),
      Atom(NotSpaceOrAt, 1, None) ]

  /** A username is 3 to 20 ASCII letters, digits or underscores. */
  predicate ValidUsername(s: string) {
    3 <= |s| <= 20 && forall i :: 0 <= i < |s| ==> IsWordChar(s[i])
  }

  lemma UsernameMatchesPattern(s: string)
    ensures ValidUsername(s) <==> Matches(UsernamePattern, s)
  {
    var p := UsernamePattern;
    if ValidUsername(s) {
      assert AtomSpans(p[0], s, 0, |s|) && MatchesFrom(p, 1, s, |s|);
    }
    if Matches(p, s) {
      var j :| 0 <= j <= |s| && AtomSpans(p[0], s, 0, j) && MatchesFrom(p, 1, s, j);
      assert j == |s|;
    }
  }

  /** An email is accepted when it has no white space, exactly one '@' with
      something before it, and a '.' after the '@' that is neither the
      first nor the last character of the part after the '@'. */
  predicate ValidEmail(s: string) {
    var at := IndexOf(s, '@');
    && (forall i :: 0 <= i < |s| ==> !IsWhitespace(s[i]))
    && 0 < at < |s|
    && (forall i :: at < i < |s| ==> s[i] != '@')
    && exists j :: at + 1 < j < |s| - 1 && s[j] == '.'
  }

  /** `s` reads `local@d1.d2`, with the '@' at `at` and the '.' at `dot`
      and every other character neither white space nor '@'. */
  ghost predicate EmailSplit(s: string, at: nat, dot: nat) {
    && 0 < at && at + 1 < dot && dot + 1 < |s|
    && s[at] == '@' && s[dot] == '.'
    && (forall i :: 0 <= i < |s| && i != at && i != dot ==> InClass(NotSpaceOrAt, s[i]))
  }

  lemma EmailSplitMatches(s: string, at: nat, dot: nat)
    requires EmailSplit(s, at, dot)
    ensures Matches(EmailPattern, s)
  {
    var p := EmailPattern;
    assert AtomSpans(p[4], s, dot + 1, |s|) && MatchesFrom(p, 5, s, |s|);
    assert AtomSpans(p[3], s, dot, dot + 1) && MatchesFrom(p, 4, s, dot + 1);
    assert AtomSpans(p[2], s, at + 1, dot) && MatchesFrom(p, 3, s, dot);
    assert AtomSpans(p[1], s, at, at + 1) && MatchesFrom(p, 2, s, at + 1);
    assert AtomSpans(p[0], s, 0, at) && MatchesFrom(p, 1, s, at);
  }

  lemma MatchesEmailSplit(s: string) returns (at: nat, dot: nat)
    requires Matches(EmailPattern, s)
    ensures EmailSplit(s, at, dot)
  {
    var p := EmailPattern;
    var j0 :| 0 <= j0 <= |s| && AtomSpans(p[0], s, 0, j0) && MatchesFrom(p, 1, s, j0);
    var j1 :| j0 <= j1 <= |s| && AtomSpans(p[1], s, j0, j1) && MatchesFrom(p, 2, s, j1);
    var j2 :| j1 <= j2 <= |s| && AtomSpans(p[2], s, j1, j2) && MatchesFrom(p, 3, s, j2);
    var j3 :| j2 <= j3 <= |s| && AtomSpans(p[3], s, j2, j3) && MatchesFrom(p, 4, s, j3);
    var j4 :| j3 <= j4 <= |s| && AtomSpans(p[4], s, j3, j4) && MatchesFrom(p, 5, s, j4);
    at, dot := j0, j2;
    assert j1 == at + 1 && j3 == dot + 1 && j4 == |s|;
    assert InClass(p[1].cls, s[at]) && InClass(p[3].cls, s[dot]);
    forall i | 0 <= i < |s| && i != at && i != dot
      ensures InClass(NotSpaceOrAt, s[i])
    {
      if i < at {
        assert InClass(p[0].cls, s[i]);
      } else if i < dot {
        assert InClass(p[2].cls, s[i]);
      } else {
        assert InClass(p[4].cls, s[i]);
      }
    }
  }

  /** The direct description and the regular expression accept the same
      strings. */
  lemma EmailMatchesPattern(s: string)
    ensures ValidEmail(s) <==> Matches(EmailPattern, s)
  {
    var at := IndexOf(s, '@');
    if ValidEmail(s) {
      var dot :| at + 1 < dot < |s| - 1 && s[dot] == '.';
      EmailSplitMatches(s, at, dot);
    }
    if Matches(EmailPattern, s) {
      var a, dot := MatchesEmailSplit(s);
      assert at == a;
    }
  }

  /** Where a violation was found: a top-level field, or a field of the
      comment at some position. */
  datatype Path = Top(name: string) | InComment(index: nat, name: string)

  datatype Violation =
    | Required(path: Path)
    | Mismatch(path: Path, message: string)
    | BelowMin(path: Path)
    | AboveMax(path: Path)

  const UsernameMessage := "Error: No special characters allowed in username."
  const EmailMessage := "Error: Must format as email"

  /** The violation of a required String field, if any. The required check
      rejects exactly the falsy values (undefined, null and the empty
      string), and a pattern is only tried on a value that passed it. */
  function CheckString(path: Path, f: Field, pattern: Option<(string -> bool, string)>): (v: seq<Violation>)
    ensures |v| <= 1
    ensures |v| == 0 <==> Truthy(f) && (pattern.Some? ==> pattern.value.0(f.s))
    ensures |v| == 1 && !Truthy(f) ==> v[0] == Required(path)
    ensures |v| == 1 && Truthy(f) ==> pattern.Some? && v[0] == Mismatch(path, pattern.value.1)
  {
    if !Truthy(f) then [Required(path)]
    else match pattern
      case None => []
      case Some((accepts, message)) => if accepts(f.s) then [] else [Mismatch(path, message)]
  }

  /** An object id, held as its text. */
  datatype ObjectId = ObjectId(hex: string)

  /** A user document. Birthday is a timestamp when present. */
  datatype UserDoc = UserDoc(username: Field, password: Field, email: Field,
                             birthday: Option<int>, favoriteMovies: seq<ObjectId>,
                             admin: Option<bool>)

  /** The violations of a user document, in field order. It is valid
      exactly when Username, Password and Email are present, the Username
      is 3 to 20 word characters and the Email has the accepted shape. */
  function ValidateUser(u: UserDoc): (vs: seq<Violation>)
    ensures |vs| == 0 <==>
              && Truthy(u.username) && ValidUsername(u.username.s)
              && Truthy(u.password)
              && Truthy(u.email) && ValidEmail(u.email.s)
    ensures Required(Top("Username")) in vs <==> !Truthy(u.username)
    ensures Required(Top("Password")) in vs <==> !Truthy(u.password)
    ensures Required(Top("Email")) in vs <==> !Truthy(u.email)
    ensures Mismatch(Top("Username"), UsernameMessage) in vs <==>
              Truthy(u.username) && !ValidUsername(u.username.s)
    ensures Mismatch(Top("Email"), EmailMessage) in vs <==>
              Truthy(u.email) && !ValidEmail(u.email.s)
    ensures |vs| <= 3
    ensures forall v :: v in vs ==>
              v in [Required(Top("Username")), Required(Top("Password")), Required(Top("Email")),
                    Mismatch(Top("Username"), UsernameMessage), Mismatch(Top("Email"), EmailMessage)]
  {
    var a := CheckString(Top("Username"), u.username, Some((ValidUsername, UsernameMessage)));
    var b := CheckString(Top("Password"), u.password, None);
    var c := CheckString(Top("Email"), u.email, Some((ValidEmail, EmailMessage)));
    assert Top("Username") != Top("Password") && Top("Username") != Top("Email")
           && Top("Password") != Top("Email");
    a + b + c
  }

  /** Favourites are a plain list: nothing about them, duplicates included,
      changes whether a user document is valid. */
  lemma FavoritesAreUnconstrained(u: UserDoc, favorites: seq<ObjectId>)
    ensures ValidateUser(u.(favoriteMovies := favorites)) == ValidateUser(u)
  {
  }

  /** A comment; Rating is a number when present, PostedAt a timestamp. */
  datatype CommentDoc = CommentDoc(username: Field, content: Field, rating: Option<real>,
                                   postedAt: Option<int>)

  /** The violation of the required Rating with bounds 1 and 5, if any. */
  function CheckRating(path: Path, rating: Option<real>): (v: seq<Violation>)
    ensures |v| <= 1
    ensures |v| == 0 <==> rating.Some? && 1.0 <= rating.value <= 5.0
    ensures rating.None? ==> v == [Required(path)]
    ensures rating.Some? && rating.value < 1.0 ==> v == [BelowMin(path)]
    ensures rating.Some? && rating.value > 5.0 ==> v == [AboveMax(path)]
  {
    match rating
    case None => [Required(path)]
    case Some(r) => if r < 1.0 then [BelowMin(path)] else if r > 5.0 then [AboveMax(path)] else []
  }

  predicate ValidComment(c: CommentDoc) {
    Truthy(c.username) && Truthy(c.content) && c.rating.Some? && 1.0 <= c.rating.value <= 5.0
  }

  /** The violations of the comment at position `index`: one per failing
      field, each naming that field of that comment. */
  function ValidateComment(c: CommentDoc, index: nat): (vs: seq<Violation>)
    ensures |vs| == 0 <==> ValidComment(c)
    ensures |vs| <= 3
    ensures forall v :: v in vs ==> v.path.InComment? && v.path.index == index
    ensures Required(InComment(index, "Username")) in vs <==> !Truthy(c.username)
    ensures Required(InComment(index, "Content")) in vs <==> !Truthy(c.content)
    ensures Required(InComment(index, "Rating")) in vs <==> c.rating.None?
    ensures BelowMin(InComment(index, "Rating")) in vs <==> c.rating.Some? && c.rating.value < 1.0
    ensures AboveMax(InComment(index, "Rating")) in vs <==> c.rating.Some? && c.rating.value > 5.0
    ensures forall v :: v in vs ==>
              v in [Required(InComment(index, "Username")), Required(InComment(index, "Content")),
                    Required(InComment(index, "Rating")), BelowMin(InComment(index, "Rating")),
                    AboveMax(InComment(index, "Rating"))]
  {
    CheckString(InComment(index, "Username"), c.username, None)
    + CheckString(InComment(index, "Content"), c.content, None)
    + CheckRating(InComment(index, "Rating"), c.rating)
  }

  /** The validated part of a movie document. */
  datatype MovieRecord = MovieRecord(title: Field, description: Field, comments: seq<CommentDoc>)

  /** The violations of the comments from position `from` on;
      CommentViolationsAreOwn states that they are exactly the violations
      each of those comments has on its own. */
  function CommentViolations(cs: seq<CommentDoc>, from: nat): (vs: seq<Violation>)
    requires from <= |cs|
    ensures |vs| == 0 <==> forall i :: from <= i < |cs| ==> ValidComment(cs[i])
    ensures forall v :: v in vs ==> v.path.InComment? && from <= v.path.index < |cs|
    decreases |cs| - from
  {
    if from == |cs| then []
    else ValidateComment(cs[from], from) + CommentViolations(cs, from + 1)
  }

  /** Every violation reported for the comments is one of its own comment's. */
  lemma {:induction false} CommentViolationsFromOwn(cs: seq<CommentDoc>, from: nat)
    requires from <= |cs|
    ensures forall v :: v in CommentViolations(cs, from) ==>
              v.path.InComment? && from <= v.path.index < |cs|
              && v in ValidateComment(cs[v.path.index], v.path.index)
    decreases |cs| - from
  {
    if from < |cs| {
      CommentViolationsFromOwn(cs, from + 1);
      var own := ValidateComment(cs[from], from);
      var rest := CommentViolations(cs, from + 1);
      forall v: Violation | v in own + rest
        ensures v.path.InComment? && from <= v.path.index < |cs|
                && v in ValidateComment(cs[v.path.index], v.path.index)
      {
        if v !in own {
          assert v in rest;
        }
      }
    }
  }

  /** Every violation of the comment at position `i` is reported for the
      comments. */
  lemma {:induction false} OwnInCommentViolations(cs: seq<CommentDoc>, from: nat, i: nat)
    requires from <= i < |cs|
    ensures forall v :: v in ValidateComment(cs[i], i) ==> v in CommentViolations(cs, from)
    decreases i - from
  {
    var own := ValidateComment(cs[from], from);
    var rest := CommentViolations(cs, from + 1);
    assert CommentViolations(cs, from) == own + rest;
    if i > from {
      OwnInCommentViolations(cs, from + 1, i);
      assert forall v :: v in rest ==> v in own + rest;
    }
  }

  /** A violation is reported for the comments exactly when it is one of the
      violations of its own comment. */
  lemma CommentViolationsAreOwn(cs: seq<CommentDoc>, v: Violation)
    ensures v in CommentViolations(cs, 0) <==>
              v.path.InComment? && v.path.index < |cs| && v in ValidateComment(cs[v.path.index], v.path.index)
  {
    CommentViolationsFromOwn(cs, 0);
    if v.path.InComment? && v.path.index < |cs| {
      OwnInCommentViolations(cs, 0, v.path.index);
    }
  }

  /** The violations of a movie document. It is valid exactly when Title and
      Description are present and every comment is valid. */
  function ValidateMovie(m: MovieRecord): (vs: seq<Violation>)
    ensures |vs| == 0 <==>
              && Truthy(m.title) && Truthy(m.description)
              && forall i :: 0 <= i < |m.comments| ==> ValidComment(m.comments[i])
    ensures Required(Top("Title")) in vs <==> !Truthy(m.title)
    ensures Required(Top("Description")) in vs <==> !Truthy(m.description)
    ensures forall v :: v in vs ==>
              v == Required(Top("Title")) || v == Required(Top("Description"))
              || v in CommentViolations(m.comments, 0)
    ensures forall v :: v in CommentViolations(m.comments, 0) ==> v in vs
  {
    var title := CheckString(Top("Title"), m.title, None);
    var description := CheckString(Top("Description"), m.description, None);
    var cv := CommentViolations(m.comments, 0);
    assert Required(Top("Title")) !in cv && Required(Top("Description")) !in cv;
    assert forall v :: v in title + description + cv <==> v in title || v in description || v in cv;
    title + description + cv
  }

  /** A comment is rejected for its Rating exactly when the rating is
      missing or outside 1..5. */
  lemma RatingBounds(c: CommentDoc, index: nat)
    ensures (exists v :: v in ValidateComment(c, index) && v.path == InComment(index, "Rating"))
            <==> c.rating.None? || c.rating.value < 1.0 || c.rating.value > 5.0
  {
    var vs := ValidateComment(c, index);
    var a := CheckString(InComment(index, "Username"), c.username, None);
    var b := CheckString(InComment(index, "Content"), c.content, None);
    var r := CheckRating(InComment(index, "Rating"), c.rating);
    assert vs == a + b + r;
    if c.rating.None? || c.rating.value < 1.0 || c.rating.value > 5.0 {
      assert r[0] in vs;
    }
  }
}

=== FILE: seed_from_csv.dfy ===
/**
 The TMDB seeding script: a movie's TMDB details and credits are mapped to a
 Movie document, which is stored under its Title only when no document with
 that Title exists yet. The TMDB lookups (search, details, credits) are
 inputs: each CSV row carries what its lookup produced.
 */
module TmdbSeed {
  import opened JsText
  import Schemas

  const ImageBase := "https://image.tmdb.org/t/p/"
  const DefaultSize := "original"
  const NoDescription := "No description available."

  /** `img(p, size)`: the image URL for a truthy TMDB path, nothing otherwise. */
  function Img(p: Field, size: string): (u: Option<string>)
    ensures u.Some? <==> Truthy(p)
    ensures u.Some? ==> |u.value| == |ImageBase| + |size| + |p.s|
  {
    if Truthy(p) then Some(ImageBase + size + p.s) else None
  }

  /** Reads the TMDB path back out of an image URL of the given size. */
  function ImgPath(url: string, size: string): (p: Option<string>)
    ensures p.Some? ==> url == ImageBase + size + p.value
  {
    var prefix := ImageBase + size;
    if |prefix| <= |url| && url[..|prefix|] == prefix then
      assert url == prefix + url[|prefix|..];
      Some(url[|prefix|..])
    else None
  }

  /** An image URL gives back the path it was built from, so two paths get the
      same URL of a size only when they are the same path. */
  lemma ImgRoundTrip(p: Field, size: string)
    requires Truthy(p)
    ensures ImgPath(Img(p, size).value, size) == Some(p.s)
  {
  }

  lemma ImgInjective(p: Field, q: Field, size: string)
    requires Truthy(p) && Img(p, size) == Img(q, size)
    ensures p == q
  {
    ImgRoundTrip(p, size);
    ImgRoundTrip(q, size);
  }

  datatype CrewMember = CrewMember(name: Field, job: Field, profilePath: Field)
  datatype CastMember = CastMember(name: Field)
  datatype GenreRef = GenreRef(name: Field)

  /** The TMDB movie details; a missing list is `None`. */
  datatype Details = Details(title: Field, overview: Field, genres: Option<seq<GenreRef>>,
                             posterPath: Field, backdropPath: Field, releaseDate: Field)

  /** The TMDB credits; a missing list is `None`. */
  datatype Credits = Credits(crew: Option<seq<CrewMember>>, cast: Option<seq<CastMember>>)

  datatype Bundle = Bundle(d: Details, c: Credits)

  predicate IsDirector(m: CrewMember) {
    m.job == Str("Director")
  }

  /** The position of the first director at or after `from`. */
  function FindDirectorFrom(crew: seq<CrewMember>, from: nat): (r: Option<nat>)
    requires from <= |crew|
    ensures r.Some? ==> from <= r.value < |crew| && IsDirector(crew[r.value])
    ensures r.Some? ==> forall j :: from <= j < r.value ==> !IsDirector(crew[j])
    ensures r.None? <==> forall j :: from <= j < |crew| ==> !IsDirector(crew[j])
    decreases |crew| - from
  {
    if from == |crew| then None
    else if IsDirector(crew[from]) then Some(from)
    else FindDirectorFrom(crew, from + 1)
  }

  /** `crew.find(p => p.job === 'Director')`, as a position: the first crew
      member whose job is exactly "Director". */
  function FindDirector(crew: seq<CrewMember>): (r: Option<nat>)
    ensures r.Some? ==> r.value < |crew| && IsDirector(crew[r.value])
    ensures r.Some? ==> forall j :: 0 <= j < r.value ==> !IsDirector(crew[j])
    ensures r.None? <==> forall j :: 0 <= j < |crew| ==> !IsDirector(crew[j])
  {
    FindDirectorFrom(crew, 0)
  }

  function Min(a: nat, b: nat): nat {
    if a <= b then a else b
  }

  /** `(cast || []).slice(0, 5).map(a => a.name)`: the names of the first
      five billed cast members, in billing order. */
  function TopActors(cast: Option<seq<CastMember>>): (names: seq<Field>)
    ensures cast.None? ==> names == []
    ensures cast.Some? ==> |names| == Min(5, |cast.value|)
    ensures cast.Some? ==> forall i :: 0 <= i < |names| ==> names[i] == cast.value[i].name
  {
    match cast
    case None => []
    case Some(cs) => seq(Min(5, |cs|), i requires 0 <= i < Min(5, |cs|) => cs[i].name)
  }

  datatype DirectorDoc = DirectorDoc(name: Field, image: Option<string>)

  /** The Movie document the script builds; `None` stands for a field left
      undefined. The release year is a number, of the abstract type `N`. */
  datatype MovieDoc<N> = MovieDoc(title: Field, description: string, genre: Option<Field>,
                                  director: Option<DirectorDoc>, actors: seq<Field>,
                                  imagePath: Option<string>, backdropPath: Option<string>,
                                  featured: bool, releaseYear: Option<N>)

  function DirectorOf(crew: Option<seq<CrewMember>>): (r: Option<DirectorDoc>)
    ensures r.None? <==> crew.None? || forall j :: 0 <= j < |crew.value| ==> !IsDirector(crew.value[j])
    ensures r.Some? ==> exists j :: 0 <= j < |crew.value| && IsDirector(crew.value[j])
                                    && (forall k :: 0 <= k < j ==> !IsDirector(crew.value[k]))
                                    && r.value.name == crew.value[j].name
                                    && r.value.image == Img(crew.value[j].profilePath, "w500")
  {
    var cs := if crew.Some? then crew.value else [];
    match FindDirector(cs)
    case None => None
    case Some(j) =>
      var m := cs[j];
      Some(DirectorDoc(m.name, if Truthy(m.profilePath) then Img(m.profilePath, "w500") else None))
  }

  /** `mapToSchema`: TMDB details and credits to a Movie document. */
  function MapToSchema<N>(b: Bundle, parse: string -> N): (doc: MovieDoc<N>)
    ensures doc.title == b.d.title
    ensures |doc.description| > 0
    ensures doc.description == (if Truthy(b.d.overview) then b.d.overview.s else NoDescription)
    ensures doc.genre.Some? <==> b.d.genres.Some? && |b.d.genres.value| > 0
    ensures doc.genre.Some? ==> doc.genre.value == b.d.genres.value[0].name
    ensures doc.director == DirectorOf(b.c.crew)
    ensures doc.actors == TopActors(b.c.cast)
    ensures doc.imagePath == Img(b.d.posterPath, "w780")
    ensures doc.backdropPath == Img(b.d.backdropPath, DefaultSize)
    ensures !doc.featured
    ensures doc.releaseYear.Some? <==> Truthy(b.d.releaseDate)
    ensures doc.releaseYear.Some? ==>
              var rd := b.d.releaseDate.s;
              doc.releaseYear.value == parse(rd[..Min(4, |rd|)])
  {
    var d := b.d;
    MovieDoc(
      d.title,
      if Truthy(d.overview) then d.overview.s else NoDescription,
      if d.genres.Some? && |d.genres.value| > 0 then Some(d.genres.value[0].name) else None,
      DirectorOf(b.c.crew),
      TopActors(b.c.cast),
      Img(d.posterPath, "w780"),
      Img(d.backdropPath, DefaultSize),
      false,
      if Truthy(d.releaseDate) then Some(parse(d.releaseDate.s[..Min(4, |d.releaseDate.s|)])) else None)
  }

  /** The mapped document always meets the Movie schema's Description
      requirement, and meets the Title requirement exactly when TMDB gave a
      non-empty title (it carries no comments yet). */
  lemma MappedDocValidity<N>(b: Bundle, parse: string -> N)
    ensures var doc := MapToSchema(b, parse);
            Schemas.ValidateMovie(Schemas.MovieRecord(doc.title, Str(doc.description), [])) == []
            <==> Truthy(b.d.title)
  {
  }

  /** The Movie collection, by Title. */
  type Store<N> = map<Field, MovieDoc<N>>

  ghost predicate KeyedByTitle<N>(store: Store<N>) {
    forall t :: t in store ==> store[t].title == t
  }

  /** `upsertByTitle`: find the document with this Title and, only when there
      is none, insert this one (`$setOnInsert`). */
  function UpsertByTitle<N>(store: Store<N>, doc: MovieDoc<N>): (r: Store<N>)
    ensures r.Keys == store.Keys + {doc.title}
    ensures forall t :: t in store ==> r[t] == store[t]
    ensures doc.title !in store ==> r[doc.title] == doc
  {
    if doc.title in store then store else store[doc.title := doc]
  }

  lemma UpsertKeepsKeying<N>(store: Store<N>, doc: MovieDoc<N>)
    requires KeyedByTitle(store)
    ensures KeyedByTitle(UpsertByTitle(store, doc))
  {
  }

  /** Upserting the same document twice is upserting it once, and for one
      Title the first document stored wins. */
  lemma UpsertFirstWins<N>(store: Store<N>, a: MovieDoc<N>, b: MovieDoc<N>)
    requires a.title == b.title
    ensures UpsertByTitle(UpsertByTitle(store, a), b) == UpsertByTitle(store, a)
  {
  }

  /** What happened to a row inside the script's `try`: no search match; the
      details and credits were fetched and the upsert went through; or an
      error was thrown and caught (any lookup, or the upsert itself). */
  datatype Lookup = NoTmdbMatch | Fetched(bundle: Bundle) | Errored

  /** A CSV row: its Title cell and the outcome of the lookups for it. */
  datatype SeedRow = SeedRow(title: Field, lookup: Lookup)

  /** The document a row stores, if it gets that far: rows whose Title is
      blank are skipped before any lookup. */
  function RowDoc<N>(row: SeedRow, parse: string -> N): (r: Option<MovieDoc<N>>)
    ensures r.Some? <==> !IsBlank(row.title) && row.lookup.Fetched?
    ensures r.Some? ==> r.value == MapToSchema(row.lookup.bundle, parse)
  {
    if IsBlank(row.title) then None
    else match row.lookup
      case Fetched(b) => Some(MapToSchema(b, parse))
      case _ => None
  }

  /** The documents the rows produce, row by row. */
  function Produced<N>(rows: seq<SeedRow>, parse: string -> N): (ds: seq<Option<MovieDoc<N>>>)
    ensures |ds| == |rows|
    ensures forall i :: 0 <= i < |rows| ==> ds[i] == RowDoc(rows[i], parse)
  {
    seq(|rows|, i requires 0 <= i < |rows| => RowDoc(rows[i], parse))
  }

  /** Some document among `ds` has Title `t`. */
  ghost predicate Produces<N>(ds: seq<Option<MovieDoc<N>>>, t: Field) {
    exists i :: 0 <= i < |ds| && ds[i].Some? && ds[i].value.title == t
  }

  /** Upserts the documents in order, skipping the rows that produced none.
      The store gains exactly the new Titles, documents already stored are
      never changed, and a new Title holds the first document with it. */
  function UpsertAll<N>(store: Store<N>, ds: seq<Option<MovieDoc<N>>>): (r: Store<N>)
    ensures forall t :: t in r <==> t in store || Produces(ds, t)
    ensures forall t :: t in store ==> r[t] == store[t]
    ensures KeyedByTitle(store) ==> KeyedByTitle(r)
    ensures forall t :: t in r && t !in store ==>
              r[t].title == t &&
              exists i :: 0 <= i < |ds| && ds[i] == Some(r[t]) && !Produces(ds[..i], t)
    decreases |ds|
  {
    if |ds| == 0 then store
    else
      var n := |ds| - 1;
      var before := UpsertAll(store, ds[..n]);
      var r := match ds[n]
               case None => before
               case Some(doc) => UpsertByTitle(before, doc);
      UpsertAllStep(store, ds, ds[..n], before, r);
      r
  }

  /** The inductive step of UpsertAll's contract, from all but the last
      document to all of them. */
  lemma UpsertAllStep<N>(store: Store<N>, ds: seq<Option<MovieDoc<N>>>, prefix: seq<Option<MovieDoc<N>>>,
                         before: Store<N>, r: Store<N>)
    requires |ds| > 0
    requires forall t :: t in before <==> t in store || Produces(prefix, t)
    requires forall t :: t in store ==> before[t] == store[t]
    requires prefix == ds[..|ds| - 1]
    requires forall t :: t in before && t !in store ==>
               exists i :: 0 <= i < |prefix| && prefix[i] == Some(before[t]) && !Produces(prefix[..i], t)
    requires KeyedByTitle(store) ==> KeyedByTitle(before)
    requires r == match ds[|ds| - 1]
                  case None => before
                  case Some(doc) => UpsertByTitle(before, doc)
    ensures forall t :: t in r <==> t in store || Produces(ds, t)
    ensures forall t :: t in store ==> r[t] == store[t]
    ensures KeyedByTitle(store) ==> KeyedByTitle(r)
    ensures forall t :: t in r && t !in store ==>
              exists i :: 0 <= i < |ds| && ds[i] == Some(r[t]) && !Produces(ds[..i], t)
  {
    var n := |ds| - 1;
    forall t ensures Produces(ds, t) <==> Produces(prefix, t) || (ds[n].Some? && ds[n].value.title == t) {
      if Produces(ds, t) {
        var i :| 0 <= i < |ds| && ds[i].Some? && ds[i].value.title == t;
        if i < n {
          assert prefix[i] == ds[i];
        }
      }
      if Produces(prefix, t) {
        var i :| 0 <= i < |prefix| && prefix[i].Some? && prefix[i].value.title == t;
        assert ds[i] == prefix[i];
      }
    }
    forall t | t in r && t !in store
      ensures exists i :: 0 <= i < |ds| && ds[i] == Some(r[t]) && !Produces(ds[..i], t)
    {
      if t in before {
        var i :| 0 <= i < |prefix| && prefix[i] == Some(before[t]) && !Produces(prefix[..i], t);
        assert prefix[..i] == ds[..i];
        assert ds[i] == Some(r[t]);
      } else {
        assert ds[..n] == prefix;
        assert ds[n] == Some(r[t]);
      }
    }
  }

  /** A pass whose documents' Titles are all stored already leaves the store alone. */
  lemma UpsertAllNoOp<N>(store: Store<N>, ds: seq<Option<MovieDoc<N>>>)
    requires forall t :: Produces(ds, t) ==> t in store
    ensures UpsertAll(store, ds) == store
  {
  }

  /** A Title no document before position `i` has comes from no row before `i`. */
  lemma NoEarlierProducer<N>(rows: seq<SeedRow>, parse: string -> N, i: nat, t: Field)
    requires i <= |rows| && !Produces(Produced(rows, parse)[..i], t)
    ensures forall k :: 0 <= k < i ==> RowDoc(rows[k], parse).None? || RowDoc(rows[k], parse).value.title != t
  {
    var ds := Produced(rows, parse);
    forall k | 0 <= k < i
      ensures RowDoc(rows[k], parse).None? || RowDoc(rows[k], parse).value.title != t
    {
      assert ds[..i][k] == ds[k];
    }
  }

  /** The script's main loop over the CSV rows. */
  function SeedAll<N>(store: Store<N>, rows: seq<SeedRow>, parse: string -> N): (r: Store<N>)
    ensures forall t :: t in r <==>
              t in store || exists i :: 0 <= i < |rows| && RowDoc(rows[i], parse).Some?
                                                        && RowDoc(rows[i], parse).value.title == t
    ensures forall t :: t in store ==> r[t] == store[t]
    ensures KeyedByTitle(store) ==> KeyedByTitle(r)
    ensures forall t :: t in r && t !in store ==>
              r[t].title == t &&
              exists i :: 0 <= i < |rows| && RowDoc(rows[i], parse) == Some(r[t]) &&
                          forall k :: 0 <= k < i ==> RowDoc(rows[k], parse).None? || RowDoc(rows[k], parse).value.title != t
  {
    var ds := Produced(rows, parse);
    var r := UpsertAll(store, ds);
    assert forall t :: Produces(ds, t) <==>
             exists i :: 0 <= i < |rows| && RowDoc(rows[i], parse).Some? && RowDoc(rows[i], parse).value.title == t;
    forall t | t in r && t !in store
      ensures exists i :: 0 <= i < |rows| && RowDoc(rows[i], parse) == Some(r[t]) &&
                          forall k :: 0 <= k < i ==> RowDoc(rows[k], parse).None? || RowDoc(rows[k], parse).value.title != t
    {
      var i :| 0 <= i < |ds| && ds[i] == Some(r[t]) && !Produces(ds[..i], t);
      NoEarlierProducer(rows, parse, i, t);
    }
    r
  }

  /** Seeding is safe to re-run: a second pass over the same rows changes
      nothing. */
  lemma SeedAllIdempotent<N>(store: Store<N>, rows: seq<SeedRow>, parse: string -> N)
    ensures SeedAll(SeedAll(store, rows, parse), rows, parse) == SeedAll(store, rows, parse)
  {
  }

  /** Every row with a non-blank Title whose lookups and upsert went through
      ends up with a document under the Title TMDB gave it. */
  lemma FetchedRowsAreStored<N>(store: Store<N>, rows: seq<SeedRow>, parse: string -> N, i: nat)
    requires i < |rows| && !IsBlank(rows[i].title) && rows[i].lookup.Fetched?
    ensures rows[i].lookup.bundle.d.title in SeedAll(store, rows, parse)
  {
  }
}

=== FILE: update_from_csv.dfy ===
/**
 The row logic of the CSV update script: choosing the lookup key, building
 the `$set` document, the two skip rules, and the updated / skipped /
 notFound / failed tally of the import loop. Reading the CSV and talking to
 the datastore are outside the model: the rows arrive as a sequence and the
 datastore's answer for each row is an input.
 */
module CsvUpdate {
  import opened JsText

  /** True when every character of `s` other than its first `c` is white space. */
  ghost predicate OnlySpaceBesidesFirst(s: string, c: char) {
    forall i :: 0 <= i < |s| && i != IndexOf(s, c) ==> IsWhitespace(s[i])
  }

  lemma RemoveFirstAllWhitespace(s: string, c: char)
    ensures AllWhitespace(RemoveFirst(s, c)) <==> OnlySpaceBesidesFirst(s, c)
  {
    var r := RemoveFirst(s, c);
    var at := IndexOf(s, c);
    if at < |s| {
      assert c in s;
    } else {
      assert c !in s;
    }
    if AllWhitespace(r) {
      forall k | 0 <= k < |s| && k != at
        ensures IsWhitespace(s[k])
      {
        if k < at { assert r[k] == s[k]; } else { assert r[k - 1] == s[k]; }
      }
    }
  }

  /** `normScore`: when there is a score, it is the number parsed from the
      text with its first '%' removed and then trimmed. */
  function NormScore<N>(v: Field, parse: string -> N): (r: Option<N>)
    ensures r.Some? ==> v.Str? && r.value == parse(Trim(RemoveFirst(v.s, '%')))
  {
    if IsBlank(v) then None
    else
      var n := Trim(RemoveFirst(v.s, '%'));
      if n == "" then None else Some(parse(n))
  }

  /** There is no score exactly when the value is missing or every character
      apart from its first '%' is white space; in particular a blank value
      never has one, so the blank test in `normScore` changes no answer. */
  lemma NoScoreIffOnlySpace<N>(v: Field, parse: string -> N)
    ensures NormScore(v, parse).None? <==> (v.Str? ==> OnlySpaceBesidesFirst(v.s, '%'))
    ensures IsBlank(v) ==> NormScore(v, parse).None?
  {
    if v.Str? {
      RemoveFirstAllWhitespace(v.s, '%');
    }
  }

  /** One CSV row; every column may be missing. */
  datatype Row = Row(id: Field, title: Field, appleTV: Field, amazonPrime: Field,
                     rtLink: Field, rtScore: Field)

  /** The filter handed to `findOneAndUpdate`. */
  datatype Query = ById(id: string) | ByTitle(title: string)

  /** The query the script builds for a row: `row._id && row._id.trim()`
      first, then the same test on `Title`, otherwise none. */
  function SelectQuery(row: Row): (q: Option<Query>)
    ensures !IsBlank(row.id) ==> q == Some(ById(Trim(row.id.s)))
    ensures IsBlank(row.id) && !IsBlank(row.title) ==> q == Some(ByTitle(Trim(row.title.s)))
    ensures q.None? <==> IsBlank(row.id) && IsBlank(row.title)
  {
    if Truthy(row.id) && Trim(row.id.s) != "" then Some(ById(Trim(row.id.s)))
    else if Truthy(row.title) && Trim(row.title.s) != "" then Some(ByTitle(Trim(row.title.s)))
    else None
  }

  /** A usable `_id` decides the query whatever the `Title` column holds. */
  lemma IdWinsOverTitle(row: Row, title: Field)
    requires !IsBlank(row.id)
    ensures SelectQuery(row.(title := title)) == SelectQuery(row)
    ensures SelectQuery(row) == Some(ById(Trim(row.id.s)))
  {
  }

  /** A value of the `$set` document: a string or a parsed number. */
  datatype SetValue<N> = Text(text: string) | Numeric(num: N)

  /** The five paths the script may set, by their dotted names. */
  datatype SetKey = AppleTV | AmazonPrime | RtLink | NumericScore | Score {
    function Path(): string {
      match this
      case AppleTV => "WatchLinks.AppleTV"
      case AmazonPrime => "WatchLinks.AmazonPrime"
      case RtLink => "RottonTomatoes.0.Link"
      case NumericScore => "RottonTomatoes.0.NumericScore"
      case Score => "RottonTomatoes.0.Score"
    }
  }

  /** The five keys stand for five different dotted paths, so the map keyed
      by SetKey is the `$set` object keyed by path. */
  lemma PathsDistinct(a: SetKey, b: SetKey)
    requires a != b
    ensures a.Path() != b.Path()
  {
  }

  type SetDoc<N> = map<SetKey, SetValue<N>>

  /** Stores the trimmed column under `key` unless the column is blank. */
  function SetUnlessBlank<N>(m: SetDoc<N>, key: SetKey, v: Field): (m': SetDoc<N>)
    ensures key in m' <==> key in m || !IsBlank(v)
    ensures !IsBlank(v) ==> m'[key] == Text(Trim(v.s))
    ensures IsBlank(v) ==> m' == m
    ensures forall k :: k != key ==> (k in m' <==> k in m)
    ensures forall k :: k != key && k in m ==> m'[k] == m[k]
  {
    if IsBlank(v) then m else m[key := Text(Trim(v.s))]
  }

  /** The three link paths of a row: each present exactly when its column
      is not blank, holding the trimmed column. */
  function LinkChanges<N>(row: Row): (m: SetDoc<N>)
    ensures NumericScore !in m && Score !in m
    ensures AppleTV in m <==> !IsBlank(row.appleTV)
    ensures AppleTV in m ==> m[AppleTV] == Text(Trim(row.appleTV.s))
    ensures AmazonPrime in m <==> !IsBlank(row.amazonPrime)
    ensures AmazonPrime in m ==> m[AmazonPrime] == Text(Trim(row.amazonPrime.s))
    ensures RtLink in m <==> !IsBlank(row.rtLink)
    ensures RtLink in m ==> m[RtLink] == Text(Trim(row.rtLink.s))
  {
    var m1 := SetUnlessBlank(map[], AppleTV, row.appleTV);
    var m2 := SetUnlessBlank(m1, AmazonPrime, row.amazonPrime);
    assert AppleTV in m2 <==> AppleTV in m1;
    SetUnlessBlank(m2, RtLink, row.rtLink)
  }

  /** Adds both score paths when there is a score, and nothing otherwise. */
  function WithScore<N>(m: SetDoc<N>, score: Option<N>, show: N -> string): (m': SetDoc<N>)
    ensures forall k :: k != NumericScore && k != Score ==> (k in m' <==> k in m)
    ensures forall k :: k != NumericScore && k != Score && k in m ==> m'[k] == m[k]
    ensures score.None? ==> m' == m
    ensures score.Some? ==> NumericScore in m' && m'[NumericScore] == Numeric(score.value)
    ensures score.Some? ==> Score in m' && m'[Score] == Text(show(score.value) + "%")
  {
    match score
    case None => m
    case Some(n) => m[NumericScore := Numeric(n)][Score := Text(show(n) + "%")]
  }

  /** The `$set` document of a row. Each link key is present exactly when
      its column is not blank and holds the trimmed column; the two score
      keys are present together, exactly when `normScore` yields a number,
      and the text score is that number printed and followed by '%'. */
  function BuildSet<N>(row: Row, num: NumberOps<N>): (m: SetDoc<N>)
    ensures AppleTV in m <==> !IsBlank(row.appleTV)
    ensures AppleTV in m ==> m[AppleTV] == Text(Trim(row.appleTV.s))
    ensures AmazonPrime in m <==> !IsBlank(row.amazonPrime)
    ensures AmazonPrime in m ==> m[AmazonPrime] == Text(Trim(row.amazonPrime.s))
    ensures RtLink in m <==> !IsBlank(row.rtLink)
    ensures RtLink in m ==> m[RtLink] == Text(Trim(row.rtLink.s))
    ensures NumericScore in m <==> NormScore(row.rtScore, num.parse).Some?
    ensures Score in m <==> NormScore(row.rtScore, num.parse).Some?
    ensures Score in m ==>
              var n := NormScore(row.rtScore, num.parse).value;
              m[NumericScore] == Numeric(n) && m[Score] == Text(num.show(n) + "%")
  {
    var links := LinkChanges(row);
    var score := NormScore(row.rtScore, num.parse);
    var m := WithScore(links, score, num.show);
    assert AppleTV in m <==> AppleTV in links;
    assert AmazonPrime in m <==> AmazonPrime in links;
    assert RtLink in m <==> RtLink in links;
    m
  }

  /** Why a row was skipped. */
  datatype SkipReason = NoKey | NothingToSet

  /** What the loop does with a row before the datastore is involved. */
  datatype Plan<N> = Skip(reason: SkipReason) | Update(query: Query, changes: SetDoc<N>)

  /** The per-row decision: skip without a key, skip with nothing to set,
      otherwise an update of the chosen document with the built `$set`. */
  function PlanRow<N>(row: Row, num: NumberOps<N>): (p: Plan<N>)
    ensures p.Skip? && p.reason == NoKey <==> IsBlank(row.id) && IsBlank(row.title)
    ensures p.Skip? && p.reason == NothingToSet <==>
              SelectQuery(row).Some? && |BuildSet(row, num)| == 0
    ensures p.Update? ==> Some(p.query) == SelectQuery(row)
                          && p.changes == BuildSet(row, num) && |p.changes| > 0
  {
    match SelectQuery(row)
    case None => Skip(NoKey)
    case Some(q) =>
      var changes := BuildSet(row, num);
      if |changes| == 0 then Skip(NothingToSet) else Update(q, changes)
  }

  /** A row whose every update column is blank is skipped, whatever its key. */
  lemma BlankColumnsAreSkipped<N>(row: Row, num: NumberOps<N>)
    requires IsBlank(row.appleTV) && IsBlank(row.amazonPrime) && IsBlank(row.rtLink)
    requires IsBlank(row.rtScore)
    ensures PlanRow(row, num).Skip?
  {
  }

  /** What `findOneAndUpdate` did for a row: returned a document, returned
      null, or threw. */
  datatype StoreReply = Matched | NoMatch | Threw

  /** Where a row ends up. `DryRun` rows reach the dry-run branch. */
  datatype Outcome = Skipped | DryRun | Updated | NotFound | Failed

  /** The outcome of a row: skipped rows and dry-run rows never consult the
      datastore; otherwise a returned document counts as updated, a null
      result as not found and a thrown error as failed. */
  function RowOutcome<N>(p: Plan<N>, dry: bool, reply: StoreReply): (o: Outcome)
    ensures o == Skipped <==> p.Skip?
    ensures o == DryRun <==> p.Update? && dry
    ensures Reached(o) <==> p.Update? && !dry
    ensures o == Updated <==> p.Update? && !dry && reply == Matched
    ensures o == NotFound <==> p.Update? && !dry && reply == NoMatch
    ensures o == Failed <==> p.Update? && !dry && reply == Threw
  {
    if p.Skip? then Skipped
    else if dry then DryRun
    else match reply
      case Matched => Updated
      case NoMatch => NotFound
      case Threw => Failed
  }

  datatype Tally = Tally(updated: nat, skipped: nat, notFound: nat, failed: nat) {
    function Total(): nat {
      updated + skipped + notFound + failed
    }
  }

  /** True for the outcomes of a row whose update reached the datastore. */
  predicate Reached(o: Outcome) {
    o == Updated || o == NotFound || o == Failed
  }

  function Ind(b: bool): nat {
    if b then 1 else 0
  }

  function Sends(t: Tally): nat {
    t.updated + t.notFound + t.failed
  }

  lemma BumpReached(t: Tally, o: Outcome)
    ensures Sends(Bump(t, o)) == Sends(t) + Ind(Reached(o))
  {
  }

  /** Adds one row's outcome to the tally: a dry-run row changes no counter,
      any other outcome increments exactly the counter it names. */
  function Bump(t: Tally, o: Outcome): (t': Tally)
    ensures t'.updated == t.updated + Ind(o == Updated)
    ensures t'.skipped == t.skipped + Ind(o == Skipped)
    ensures t'.notFound == t.notFound + Ind(o == NotFound)
    ensures t'.failed == t.failed + Ind(o == Failed)
  {
    match o
    case Skipped => t.(skipped := t.skipped + 1)
    case DryRun => t
    case Updated => t.(updated := t.updated + 1)
    case NotFound => t.(notFound := t.notFound + 1)
    case Failed => t.(failed := t.failed + 1)
  }

  /** A row together with the datastore's answer for it. */
  datatype Step = Step(row: Row, reply: StoreReply)

  /** A row's plan together with the datastore's answer for it. */
  datatype Planned<N> = Planned(plan: Plan<N>, reply: StoreReply)

  function PlanSteps<N>(steps: seq<Step>, num: NumberOps<N>): (ps: seq<Planned<N>>)
    ensures |ps| == |steps|
    ensures forall i :: 0 <= i < |steps| ==> ps[i] == Planned(PlanRow(steps[i].row, num), steps[i].reply)
    ensures UpdatesNonEmpty(ps)
  {
    seq(|steps|, i requires 0 <= i < |steps| => Planned(PlanRow(steps[i].row, num), steps[i].reply))
  }

  /** A `findOneAndUpdate` call the loop issues. */
  datatype Command<N> = Command(query: Query, changes: SetDoc<N>)

  /** The tally after the rows in order. Outside dry mode every row counts
      exactly once, so the four counters add up to the number of rows. */
  function TallyOf<N>(ps: seq<Planned<N>>, dry: bool): (t: Tally)
    ensures !dry ==> t.Total() == |ps|
    decreases |ps|
  {
    if |ps| == 0 then Tally(0, 0, 0, 0)
    else
      var last := ps[|ps| - 1];
      Bump(TallyOf(ps[..|ps| - 1], dry), RowOutcome(last.plan, dry, last.reply))
  }

  /** The update a row sends: one command for a planned update outside dry
      mode, none otherwise. */
  function Sent<N>(p: Planned<N>, dry: bool): (cs: seq<Command<N>>)
    ensures |cs| == Ind(Reached(RowOutcome(p.plan, dry, p.reply)))
    ensures |cs| == 1 ==> cs[0] == Command(p.plan.query, p.plan.changes)
  {
    if p.plan.Update? && !dry then [Command(p.plan.query, p.plan.changes)] else []
  }

  /** Every planned update carries a non-empty `$set`, as PlanRow promises. */
  ghost predicate UpdatesNonEmpty<N>(ps: seq<Planned<N>>) {
    forall i :: 0 <= i < |ps| && ps[i].plan.Update? ==> |ps[i].plan.changes| > 0
  }

  /** The commands sent to the datastore, in row order. A dry run sends
      none, and no command carries an empty `$set`. */
  function Issued<N>(ps: seq<Planned<N>>, dry: bool): (cs: seq<Command<N>>)
    requires UpdatesNonEmpty(ps)
    ensures dry ==> cs == []
    ensures forall i :: 0 <= i < |cs| ==> |cs[i].changes| > 0
    decreases |ps|
  {
    if |ps| == 0 then []
    else
      var sent := Sent(ps[|ps| - 1], dry);
      assert |sent| == 1 ==> |sent[0].changes| > 0;
      Issued(ps[..|ps| - 1], dry) + sent
  }

  /** A live run sends exactly one command per row it counts as updated,
      not found or failed. */
  lemma {:induction false} IssuedMatchesTally<N>(ps: seq<Planned<N>>)
    requires UpdatesNonEmpty(ps)
    ensures |Issued(ps, false)| == Sends(TallyOf(ps, false))
    decreases |ps|
  {
    if |ps| > 0 {
      var last := ps[|ps| - 1];
      IssuedMatchesTally(ps[..|ps| - 1]);
      BumpReached(TallyOf(ps[..|ps| - 1], false), RowOutcome(last.plan, false, last.reply));
    }
  }

  /** The number of rows with a planned update whose datastore reply is `reply`. */
  ghost function Replied<N>(ps: seq<Planned<N>>, reply: StoreReply): nat
    decreases |ps|
  {
    if |ps| == 0 then 0
    else
      var last := ps[|ps| - 1];
      Replied(ps[..|ps| - 1], reply) + Ind(last.plan.Update? && last.reply == reply)
  }

  /** The counter a datastore reply feeds. */
  function CounterFor(t: Tally, reply: StoreReply): nat {
    match reply
    case Matched => t.updated
    case NoMatch => t.notFound
    case Threw => t.failed
  }

  lemma {:induction false} CounterFollowsReply<N>(ps: seq<Planned<N>>, reply: StoreReply)
    ensures CounterFor(TallyOf(ps, false), reply) == Replied(ps, reply)
    decreases |ps|
  {
    if |ps| > 0 {
      var pre, last := ps[..|ps| - 1], ps[|ps| - 1];
      CounterFollowsReply(pre, reply);
      var o := RowOutcome(last.plan, false, last.reply);
      assert TallyOf(ps, false) == Bump(TallyOf(pre, false), o);
    }
  }

  /** In a live run each counter of the datastore outcomes counts exactly the
      updated rows with the matching reply: a returned document, a null
      result, a thrown error. */
  lemma LiveCountersFollowReplies<N>(ps: seq<Planned<N>>)
    ensures var t := TallyOf(ps, false);
            && t.updated == Replied(ps, Matched)
            && t.notFound == Replied(ps, NoMatch)
            && t.failed == Replied(ps, Threw)
  {
    CounterFollowsReply(ps, Matched);
    CounterFollowsReply(ps, NoMatch);
    CounterFollowsReply(ps, Threw);
  }

  /** A dry run counts nothing but skips. */
  lemma {:induction false} DryRunCountsOnlySkips<N>(ps: seq<Planned<N>>)
    ensures var t := TallyOf(ps, true);
            t.updated == 0 && t.notFound == 0 && t.failed == 0
    decreases |ps|
  {
    if |ps| > 0 {
      DryRunCountsOnlySkips(ps[..|ps| - 1]);
    }
  }

  /** A dry run skips exactly the rows a live run skips. */
  lemma {:induction false} DryRunSkipsLikeLiveRun<N>(ps: seq<Planned<N>>)
    ensures TallyOf(ps, true).skipped == TallyOf(ps, false).skipped
    decreases |ps|
  {
    if |ps| > 0 {
      DryRunSkipsLikeLiveRun(ps[..|ps| - 1]);
    }
  }

  /** One more row extends the tally by its outcome and the commands by
      what it sends. */
  lemma FoldStep<N>(ps: seq<Planned<N>>, i: nat, dry: bool)
    requires i < |ps| && UpdatesNonEmpty(ps)
    ensures UpdatesNonEmpty(ps[..i]) && UpdatesNonEmpty(ps[..i + 1])
    ensures TallyOf(ps[..i + 1], dry)
            == Bump(TallyOf(ps[..i], dry), RowOutcome(ps[i].plan, dry, ps[i].reply))
    ensures Issued(ps[..i + 1], dry) == Issued(ps[..i], dry) + Sent(ps[i], dry)
  {
    assert ps[..i + 1][..i] == ps[..i];
  }

  /** The import loop, written as the script's `for` loop over the rows. */
  method RunUpdate<N>(steps: seq<Step>, dry: bool, num: NumberOps<N>)
    returns (t: Tally, issued: seq<Command<N>>)
    ensures t == TallyOf(PlanSteps(steps, num), dry)
    ensures issued == Issued(PlanSteps(steps, num), dry)
    ensures !dry ==> t.updated + t.skipped + t.notFound + t.failed == |steps|
  {
    ghost var ps := PlanSteps(steps, num);
    t := Tally(0, 0, 0, 0);
    issued := [];
    var i := 0;
    while i < |steps|
      invariant 0 <= i <= |steps|
      invariant UpdatesNonEmpty(ps[..i])
      invariant t == TallyOf(ps[..i], dry)
      invariant issued == Issued(ps[..i], dry)
    {
      var step := steps[i];
      FoldStep(ps, i, dry);
      ghost var plan := PlanRow(step.row, num);
      assert ps[i] == Planned(plan, step.reply);
      i := i + 1;
      var query := SelectQuery(step.row);
      if query.None? {
        t := t.(skipped := t.skipped + 1);
        continue;
      }
      var changes := BuildSet(step.row, num);
      if |changes| == 0 {
        t := t.(skipped := t.skipped + 1);
        continue;
      }
      assert plan == Update(query.value, changes);
      if dry {
        continue;
      }
      issued := issued + [Command(query.value, changes)];
      match step.reply
      case NoMatch => t := t.(notFound := t.notFound + 1);
      case Matched => t := t.(updated := t.updated + 1);
      case Threw => t := t.(failed := t.failed + 1);
    }
    assert ps[..|steps|] == ps;
  }
}
